=== FILE: README.md ===
# MPAGS cipher: a Dafny model of the Caesar path

The MPAGS cipher program reads text and encrypts or decrypts it with a classical cipher.
The cipher, key, mode and files are chosen on the command line. This project models
three parts of the program:

- **The Caesar cipher** (`caesar_cipher.dfy`, module `Caesar`):
  - the integer constructor, which reduces the key modulo the alphabet size;
  - the string constructor: the empty key means 0, a leading `-` is rejected, and
    anything else goes through `std::stoul`;
  - the character and whole-text `applyCipher`, which shift every alphabet position by
    the key to encrypt, or by `size - key` to decrypt, modulo the alphabet size.
- **The chunked execution path of `main`** (`chunked_engine.dfy`, module `ChunkedEngine`):
  - the chunk size is `ceil(L / numThreads)`;
  - chunk `i` is `substr(i * chunkSize, chunkSize)`;
  - the loop stops at the first start that `substr` rejects;
  - each chunk is enciphered, and the results are joined in chunk order.

  The default settings and the dispatch on the cipher type are in `program.dfy`
  (module `Program`).
- **The command-line parser** (`command_line.dfy`, module `CommandLine`):
  - the `ProgramSettings` record;
  - the two error kinds, `MissingArgument` and `UnknownArgument`;
  - the left-to-right argument loop of `processCommandLine`.

Supporting modules:

- `wrappers.dfy`: the `Result` and `Option` types.
- `unsigned_long.dfy`: the 64-bit `size_t` / `unsigned long` range.
- `cipher_types.dfy`: the mode and cipher-type enumerations.
- `alphabet.dfy`:
  - the alphabet;
  - `std::string::find` on it, which returns `npos` for a character outside it.
- `stoul.dfy`, a model of base-10 `std::stoul`:
  - it skips leading white space and accepts an optional sign;
  - it reads the longest digit prefix;
  - it fails when there are no digits, or when the number does not fit in 64 bits;
  - a minus sign negates the value modulo 2^64.

### Where the code decides

- **Characters outside the alphabet.** `find` returns `npos` for a non-letter, and the
  arithmetic that follows is well defined, so the model keeps it:
  - `npos` is 2^64 - 1, and `npos + shift` wraps around in `size_t`;
  - the result is therefore `'P'` when the shift is 0, and the letter at `shift - 1`
    otherwise (`Caesar.NonLetterReplaced`);
  - the round-trip and identity laws are stated for text made of letters.
- **Key parsing.** Key text is parsed with the full `std::stoul` rules: leading white
  space, an optional sign, the longest digit prefix, and the two exceptions. The
  negative-key check and `stoul` disagree on where the text starts, which is the finding
  below.
- **The program's constructor.** `main` builds the Caesar cipher with the constructor as
  written (`Caesar.FromStringAsWritten`), so `Program.Run` accepts `" -5"` as key 11
  (`Program.SpaceMinusFiveRun`).

## Model

| member | source | states |
|---|---|---|
| Caesar.FromInteger | src/MPAGSCipher/CaesarCipher.cpp:6 | the stored key is below the alphabet size and congruent to the given key modulo the size |
| Caesar.KeyNormalisation | src/MPAGSCipher/CaesarCipher.cpp:6-8 | integer keys k and k + size build the same cipher and so transform every text identically |
| Caesar.FromStringAsWritten | src/MPAGSCipher/CaesarCipher.cpp:10-35 | string constructor as written: empty key gives key 0; a first character '-' is rejected; it fails exactly when the text is non-empty and starts with '-' or stoul fails; on success the key is stoul's value modulo the size |
| Caesar.FromString | src/MPAGSCipher/CaesarCipher.cpp:14-33 | corrected string constructor: as above, but it rejects every key text that stoul reads as negative, including one with white space before the '-' |
| Caesar.KeyFromDigits | src/MPAGSCipher/CaesarCipher.cpp:23-24 | any run of digits, leading zeros included, followed by text that does not start with a digit, gives the digits' value modulo the size when it fits in an unsigned long, and is rejected when it does not, by both constructors |
| Caesar.LeadingZerosExample | src/MPAGSCipher/CaesarCipher.cpp:23-24 | "007" is key 7 in both constructors |
| Caesar.KeyFromDecimal | src/MPAGSCipher/CaesarCipher.cpp:23-24 | the shortest decimal numeral of n, followed by any text that does not start with a digit, gives key n modulo the size when n fits in an unsigned long, and is rejected when it does not, by both constructors |
| Caesar.KeyWithoutDigitsRejected | src/MPAGSCipher/CaesarCipher.cpp:25-28 | non-empty key text with no decimal digit is rejected by both constructors |
| Caesar.LeadingSpaceNegativeKey | src/MPAGSCipher/CaesarCipher.cpp:16-24 | white space, '-' and any run of digits (leading zeros included) whose value n fits in an unsigned long: the as-written constructor accepts it with the negation of n modulo 2^64, reduced modulo the size (so " -0" and " -00" are key 0); the corrected one rejects it |
| Caesar.KeyTextExamples | src/MPAGSCipher/CaesarCipher.cpp:10-20 | "" gives key 0; "-5" and "abc" are rejected |
| Caesar.ConstructorsAgree | src/MPAGSCipher/CaesarCipher.cpp:14-24 | a first character '-' is always seen by the corrected check too; the two constructors agree on every key text stoul does not read as negative, and the corrected one rejects all that it does |
| Caesar.SpaceMinusFiveExample | src/MPAGSCipher/CaesarCipher.cpp:16-24 | " -5" is accepted as key 11 as written and rejected by the corrected constructor |
| Caesar.Shift | src/MPAGSCipher/CaesarCipher.cpp:42-43 | the shift is the key to encrypt, and the key's additive inverse modulo the size to decrypt (the decrypt shift is at most the size) |
| Caesar.WrappingAdd | src/MPAGSCipher/CaesarCipher.cpp:52 | position plus shift, congruent modulo 2^64 to the exact sum, as size_t addition wraps |
| Caesar.ApplyChar | src/MPAGSCipher/CaesarCipher.cpp:58-71 | the output is always a letter; a letter's alphabet position moves by the shift modulo the size |
| Caesar.Apply | src/MPAGSCipher/CaesarCipher.cpp:37-56 | same length as the input; every output symbol is a letter; output position i is the character transform of input position i |
| Caesar.ShiftLetter | src/MPAGSCipher/CaesarCipher.cpp:63-70 | the letter at position i becomes the letter at (i + shift) mod size |
| Caesar.CharRoundTrip | src/MPAGSCipher/CaesarCipher.cpp:63-64 | for a letter, decrypt undoes encrypt and encrypt undoes decrypt, with the same key |
| Caesar.RoundTrip | src/MPAGSCipher/CaesarCipher.cpp:42-52 | for letter text, decrypting the encryption gives the text back, and so does encrypting the decryption |
| Caesar.ZeroKeyChar | src/MPAGSCipher/CaesarCipher.cpp:42-43 | with key 0, a letter is unchanged in either mode, because the decrypt shift equals the size |
| Caesar.ZeroKeyIsIdentity | src/MPAGSCipher/CaesarCipher.cpp:46-53 | with key 0, letter text is unchanged in either mode |
| Caesar.NonLetterReplaced | src/MPAGSCipher/CaesarCipher.cpp:49-52 | a non-letter becomes 'P' when the shift is 0, and otherwise the letter at shift - 1 (npos + shift wraps) |
| Caesar.ApplyConcat | src/MPAGSCipher/CaesarCipher.cpp:46-53 | the transform distributes over concatenation |
| Caesar.KeyThreeLetter | src/MPAGSCipher/CaesarCipher.cpp:63-70 | key 3 moves letter i to i + 3 to encrypt and to i + 23 to decrypt, modulo 26 |
| Caesar.HelloExample | src/MPAGSCipher/CaesarCipher.cpp:37-55 | key 3 encrypts HELLO to KHOOR and decrypts KHOOR to HELLO |
| Alphabet.IndexOf | src/MPAGSCipher/CaesarCipher.cpp:49 | a letter is found at its position in the alphabet, and a non-letter yields npos |
| Alphabet.IndexOfIsFind | src/MPAGSCipher/CaesarCipher.cpp:67 | the position lookup agrees with std::string::find on the alphabet for every character |
| Alphabet.Find | src/MPAGSCipher/CaesarCipher.cpp:67-70 | find returns the first position holding the character, below the length exactly when it is present, and npos otherwise |
| Stoul.Stoul | src/MPAGSCipher/CaesarCipher.cpp:24 | std::stoul in base 10: skip white space, one optional sign, the longest digit prefix, InvalidArgument without digits, OutOfRange above 2^64 - 1, a minus negating modulo 2^64; its properties are stated by Stoul.StoulReadsDigits, Stoul.StoulReadsDecimal, Stoul.StoulNeedsDigit and Stoul.StoulInvalidArgument |
| Stoul.StoulReadsDigits | src/MPAGSCipher/CaesarCipher.cpp:24 | white space, an optional sign and any run of digits (leading zeros included), followed by text that does not start with a digit, read as the digits' value, or as its negation modulo 2^64 after '-'; a value of 2^64 or more is OutOfRange |
| Stoul.StoulReadsDecimal | src/MPAGSCipher/CaesarCipher.cpp:24 | the same for the shortest decimal numeral of n: it reads back as n, or as its negation modulo 2^64 after '-'; n of 2^64 or more is OutOfRange |
| Stoul.StoulNeedsDigit | src/MPAGSCipher/CaesarCipher.cpp:25 | text without any decimal digit is InvalidArgument |
| Stoul.StoulInvalidArgument | src/MPAGSCipher/CaesarCipher.cpp:24-25 | stoul throws InvalidArgument exactly when no digit follows the leading white space and the optional sign (so "x5", "+-5" and "- 5" are rejected) |
| ChunkedEngine.ChunkSize | src/mpags-cipher.cpp:135-138 | the quotient, plus one when the division leaves a remainder; ChunkedEngine.ChunkSizeIsCeiling states that this is ceil(L / numThreads) |
| ChunkedEngine.ChunkSizeIsCeiling | src/mpags-cipher.cpp:133-138 | chunkSize * numThreads covers the input, and one less per chunk would not, so chunkSize is ceil(L / numThreads) |
| ChunkedEngine.StartIsProduct | src/mpags-cipher.cpp:144 | chunk k starts at k * chunkSize |
| ChunkedEngine.Substr | src/mpags-cipher.cpp:144-148 | substr fails exactly when the start lies past the end; otherwise it gives the min(count, L - pos) characters from pos |
| ChunkedEngine.Cut | src/mpags-cipher.cpp:141-148 | the chunks the loop cuts from a running start with count iterations left, stopping at the first start substr rejects; shape and coverage are stated by ChunkedEngine.CutCount, ChunkedEngine.CutChunk and ChunkedEngine.CutCovers |
| ChunkedEngine.Partition | src/mpags-cipher.cpp:135-148 | the cut of the whole input into numThreads chunks of the chunk size; stated by ChunkedEngine.PartitionShape and ChunkedEngine.PartitionConcat |
| ChunkedEngine.CutCount | src/mpags-cipher.cpp:141-148 | at most numThreads chunks are cut, and fewer only when the next start lies past the end |
| ChunkedEngine.CutChunk | src/mpags-cipher.cpp:141-146 | chunk k is the text from chunk k's start to the next chunk's start or the end, and its start is within the text |
| ChunkedEngine.PartitionShape | src/mpags-cipher.cpp:140-148 | at most numThreads chunks; chunk k is text[k*cs .. min(L, (k+1)*cs)); generation stops early only at the first start past the end |
| ChunkedEngine.CutCovers | src/mpags-cipher.cpp:141-149 | from any chunk on, the chunks joined in order are the rest of the text |
| ChunkedEngine.PartitionConcat | src/mpags-cipher.cpp:133-149 | the chunks joined in index order reproduce the input exactly |
| ChunkedEngine.EmptyInputChunks | src/mpags-cipher.cpp:134-148 | an empty input gives numThreads empty chunks, which join to the empty text |
| ChunkedEngine.ChunkExamples | src/mpags-cipher.cpp:143-148 | five characters give chunks HE, LL, O; one character gives X and an empty chunk |
| ChunkedEngine.ApplyEachPointwise | src/mpags-cipher.cpp:152-156 | result k is chunk k enciphered with the same cipher and mode |
| ChunkedEngine.ConcatAppend | src/mpags-cipher.cpp:173-175 | joining two runs of chunk results is joining their joins |
| ChunkedEngine.ApplyEachConcat | src/mpags-cipher.cpp:152-175 | enciphering the chunks one by one and joining them is enciphering their join |
| ChunkedEngine.ChunkedApply | src/mpags-cipher.cpp:124-175 | partition, encipher each chunk, join in order; ChunkedEngine.ChunkInvariance states that it equals applyCipher on the whole text |
| ChunkedEngine.ChunkInvariance | src/mpags-cipher.cpp:125-175 | for any number of chunks, the chunked output equals applyCipher on the whole text |
| ChunkedEngine.EncipherChunks | src/mpags-cipher.cpp:141-157 | the thread-creation loop, cutting chunk i at i * chunkSize, yields the enciphered chunks of the partition, in chunk order |
| ChunkedEngine.JoinInOrder | src/mpags-cipher.cpp:172-175 | the output is the chunk results joined in partition order |
| ChunkedEngine.RunChunked | src/mpags-cipher.cpp:124-176 | the chunked path outputs exactly applyCipher on the whole input |
| Program.DefaultSettings | src/mpags-cipher.cpp:21-22 | no help or version, no files, empty key, encrypt, Caesar; used by Program.DefaultRunIsIdentity |
| Program.Encipher | src/mpags-cipher.cpp:105-182 | the cipher is built with the string constructor as written; an invalid key is the key error; Caesar runs chunked and other types run on the whole text; stated by Program.EncipherIsWholeText |
| Program.Run | src/mpags-cipher.cpp:21-182 | parse over the defaults; an argument error, help, version and an invalid key end the run in that order; otherwise the enciphered text is the output; stated by the Program lemmas below |
| Program.EncipherIsWholeText | src/mpags-cipher.cpp:105-182 | Caesar key text the as-written constructor rejects gives the key error; otherwise Caesar runs chunked but gives the whole-text result; other cipher types get the whole text directly |
| Program.DefaultRunIsIdentity | src/mpags-cipher.cpp:21-22 | with no options (encrypt, Caesar, empty key) letter text comes out unchanged |
| Program.EncryptDecryptRuns | src/mpags-cipher.cpp:125-181 | a run with -k K followed by a run with --decrypt -k K on its output gives back letter text |
| Program.HelpShownFirst | src/mpags-cipher.cpp:37-76 | a help or version flag right after the program name decides the outcome whatever follows and whatever the input |
| Program.BadKeyRejected | src/mpags-cipher.cpp:105-112 | key text the as-written Caesar constructor rejects ends the run with an invalid-key outcome |
| Program.SpaceMinusFiveRun | src/mpags-cipher.cpp:105-125 | a run with -k " -5" is not rejected: it encrypts the input with key 11 |
| CommandLine.CipherByName | src/MPAGSCipher/ProcessCommandLine.cpp:68-77 | -c accepts exactly caesar, playfair and vigenere, each naming its cipher |
| CommandLine.ArgLoop | src/MPAGSCipher/ProcessCommandLine.cpp:12-84 | the loop from index i: help and version set their flag and stop, value options take the next argument, mode flags set the mode, anything else is UnknownArgument; stated by the CommandLine lemmas below |
| CommandLine.ProcessCommandLine | src/MPAGSCipher/ProcessCommandLine.cpp:6-85 | the loop from index 1 over the given settings, returning the settings or the error; stated by the CommandLine lemmas below |
| CommandLine.ProgramNameIgnored | src/MPAGSCipher/ProcessCommandLine.cpp:12 | element 0 is never examined; a bare program name, or no arguments, leave the settings unchanged |
| CommandLine.ArgLoopSuffix | src/MPAGSCipher/ProcessCommandLine.cpp:11-12 | the loop from index i depends only on the arguments from i on |
| CommandLine.ArgLoopAppend | src/MPAGSCipher/ProcessCommandLine.cpp:12-84 | if the first piece ends at a help/version flag or an unknown argument, more arguments change nothing; if it finishes, the loop continues from the second piece with the settings reached |
| CommandLine.HelpStops | src/MPAGSCipher/ProcessCommandLine.cpp:13-20 | after a clean prefix, a help or version flag sets its own indicator and leaves every other field as the prefix left it, and later arguments, even unknown ones, are ignored |
| CommandLine.FramedFlags | src/MPAGSCipher/ProcessCommandLine.cpp:21-79 | only the help and version flags set their indicators |
| CommandLine.NextArgumentDecides | src/MPAGSCipher/ProcessCommandLine.cpp:21-83 | after a clean prefix: an unrecognised argument is UnknownArgument; a value option at the end is MissingArgument; an unknown cipher name is UnknownArgument; a final --encrypt or --decrypt sets the mode |
| CommandLine.LastValueWins | src/MPAGSCipher/ProcessCommandLine.cpp:21-79 | -i, -o and -k store the next argument verbatim, and -c with a known name stores its cipher type, overriding any earlier value and changing no other field |
| CommandLine.ValueTrace | src/MPAGSCipher/ProcessCommandLine.hpp:67-77 | every resulting file name and key is the initial one or the argument right after its option |
| CommandLine.CipherTypeTrace | src/MPAGSCipher/ProcessCommandLine.cpp:60-79 | the resulting cipher type is the initial one or one named after -c |
| CommandLine.ModeTrace | src/MPAGSCipher/ProcessCommandLine.cpp:56-59 | the resulting mode is the initial one or comes from its own flag |
| CommandLine.MissingArgumentIsLast | src/MPAGSCipher/ProcessCommandLine.cpp:24-65 | MissingArgument for an option is raised only when that option is the last argument |
| CommandLine.KeyOnlyCommandLines | src/MPAGSCipher/ProcessCommandLine.cpp:45-59 | "-k K" stores K verbatim; "--decrypt -k K" also sets decrypt mode |
| CommandLine.SettingsExample | src/MPAGSCipher/ProcessCommandLine.cpp:12-84 | a full command line sets the input file, mode, key and cipher type it names |
| CommandLine.StopExamples | src/MPAGSCipher/ProcessCommandLine.hpp:37-77 | help ignores a later bogus flag; a trailing -k is MissingArgument; an unknown cipher and an unknown flag are UnknownArgument |

## Left out

- Reading the input (file or standard input) and writing the output (`src/mpags-cipher.cpp:78-103`, `184-200`): these are stream I/O. The input text is a parameter of `Program.Run`, and the output text is part of its outcome. That parameter is the text after `transformChar` has been applied to every input character (`src/mpags-cipher.cpp:93-102`), not the raw input: `transformChar` is not part of this model. A file that cannot be opened is not modelled.
- The help and version text (`src/mpags-cipher.cpp:37-76`): constant output. Only the `HelpShown` and `VersionShown` outcomes are modelled.
- `std::async`, the futures and the `wait_for` polling loop (`src/mpags-cipher.cpp:150-170`): concurrency. Each chunk's result is modelled as the cipher applied to that chunk, and the join as concatenation in chunk order.
- The thread count is a parameter `numThreads >= 1` of the chunking functions. The program passes `NumThreads = 4`.
- `transformChar`, `cipherFactory`, and the Playfair and Vigenère ciphers are not part of this model. The Caesar cipher is built with its string constructor. Every other cipher type is a caller-supplied function `OtherCiphers`. A null cipher from the factory is not modelled.
- `size_t` and `unsigned long` are taken to be 64 bits wide, as on LP64 platforms. Where `unsigned long` is 32 bits wide, stoul would read `" -5"` as 2^32 - 5, and the key would be 17 rather than 11.
- One Dafny `char` stands for one byte of a C++ `std::string`. Multi-byte encodings are not modelled.
- `Alphabet.hpp` is not part of this model. The alphabet is taken to be the 26 upper-case letters `A`-`Z`.
- Exception message strings: only the error kinds are kept. An `Unrecognised` value records whether an `UnknownArgument` was about an argument or about a cipher name.
- The partly updated settings left behind when `processCommandLine` throws: the program exits at once in that case, so the model returns only the error.
- CommandLine.MissingArgumentIsLast: states one direction only (the error implies the option is last). The converse is stated for a cleanly scanned prefix in `CommandLine.NextArgumentDecides`, because an option at the end of the line may instead be the value of the option before it.
- Caesar.RoundTrip: stated for text made of letters only. A non-letter is replaced by a letter, so no round trip exists for it (see `Caesar.NonLetterReplaced`).

## Findings

| source | as written | input that shows it | evidently intended | confidence | as-written member | corrected member |
|---|---|---|---|---|---|---|
| src/MPAGSCipher/CaesarCipher.cpp:16-24 | the negative-key check looks only at `key.front()`, but `std::stoul` first skips leading white space and then accepts a `-` sign, negating modulo 2^64 | key text `" -5"`: it passes the check, stoul reads 2^64 - 5, and the key becomes 11 (`Caesar.SpaceMinusFiveExample`, `Caesar.LeadingSpaceNegativeKey`) | reject every key that stoul reads as negative, as the comment on line 15 says | not executed | Caesar.FromStringAsWritten | Caesar.FromString |

`Program.Encipher` models `main` as it is, so it builds the cipher with `Caesar.FromStringAsWritten`, and `Program.SpaceMinusFiveRun` shows the run that accepts `" -5"`. `Caesar.FromString` is the corrected constructor. `Caesar.ConstructorsAgree` proves that the two constructors differ only on key text that stoul reads as negative.

=== FILE: alphabet.dfy ===
/**
 * The alphabet every cipher substitutes over: the 26 upper-case Latin letters,
 * and the lookup std::string::find performs on it.
 */
module Alphabet {
  import opened UnsignedLong

  /** Number of symbols in the alphabet. */
  const Size: nat := 26

  /** The alphabet, in order. */
  const Letters: string := "ABCDEFGHIJKLMNOPQRSTUVWXYZ"

  /** std::string::npos: the largest size_t value, returned by find when nothing matches. */
  const Npos: ULong := Modulus - 1

  /** The letters are consecutive code points from 'A'. */
  lemma LettersConsecutive(i: nat)
    requires i < Size
    ensures Letters[i] as int == 65 + i
  {
  }

  /** Membership in the alphabet, decided by code point. */
  predicate InAlphabet(c: char) {
    'A' <= c <= 'Z'
  }

  lemma InAlphabetIsMembership(c: char)
    ensures InAlphabet(c) <==> c in Letters
  {
    if InAlphabet(c) {
      LettersConsecutive(c as int - 65);
    } else if c in Letters {
      var i :| 0 <= i < |Letters| && Letters[i] == c;
      LettersConsecutive(i);
    }
  }

  /** True when every symbol of the text belongs to the alphabet. */
  predicate AllInAlphabet(text: string) {
    forall i :: 0 <= i < |text| ==> InAlphabet(text[i])
  }

  /** The letter at position i of the alphabet. */
  function LetterAt(i: nat): (c: char)
    requires i < Size
    ensures InAlphabet(c)
    ensures c as int - 'A' as int == i
  {
    (65 + i) as char
  }

  /** LetterAt reads the alphabet: the letter at position i is Letters[i]. */
  lemma LetterAtIsLetters(i: nat)
    requires i < Size
    ensures LetterAt(i) == Letters[i]
  {
    LettersConsecutive(i);
  }

  /** std::string::find for a single character: the first position holding c, or npos. */
  function Find(s: string, c: char): (r: nat)
    requires |s| < Npos
    ensures c in s <==> r < |s|
    ensures c !in s <==> r == Npos
    ensures r < |s| ==> s[r] == c && forall j :: 0 <= j < r ==> s[j] != c
    decreases |s|
  {
    if |s| == 0 then Npos
    else if s[0] == c then 0
    else
      var k := Find(s[1..], c);
      if k == Npos then Npos else k + 1
  }

  /** find on the alphabet locates a letter at its code-point offset from 'A'. */
  lemma FindLetter(c: char)
    ensures InAlphabet(c) ==> Find(Letters, c) == c as int - 65
    ensures !InAlphabet(c) ==> Find(Letters, c) == Npos
  {
    InAlphabetIsMembership(c);
    if InAlphabet(c) {
      LettersConsecutive(Find(Letters, c));
      LettersConsecutive(c as int - 65);
    }
  }

  /** Position of a symbol in the alphabet, or npos when it is not a letter. */
  function IndexOf(c: char): (r: nat)
    ensures InAlphabet(c) ==> r < Size && LetterAt(r) == c
    ensures !InAlphabet(c) ==> r == Npos
  {
    if InAlphabet(c) then c as int - 65 else Npos
  }

  /** IndexOf gives the same answer as std::string::find on the alphabet. */
  lemma IndexOfIsFind(c: char)
    ensures IndexOf(c) == Find(Letters, c)
  {
    FindLetter(c);
  }

  /** Looking up the letter at position i gives back i. */
  lemma IndexOfLetter(i: nat)
    requires i < Size
    ensures IndexOf(LetterAt(i)) == i
  {
  }
}

=== FILE: caesar_cipher.dfy ===
/**
 * The Caesar cipher: a key in [0, Size), built from an integer or from key text, and
 * the shift of every symbol's alphabet position by the key (encrypt) or by Size - key
 * (decrypt), modulo Size.
 */
module Caesar {
  import opened Wrappers
  import opened UnsignedLong
  import opened CipherTypes
  import opened Alphabet
  import Stoul

  /** A normalised key. */
  type Key = k: nat | k < Size

  /** A constructed Caesar cipher; its key never changes after construction. */
  datatype CaesarCipher = CaesarCipher(key: Key)

  /** The exception the string constructor throws for unusable key text. */
  datatype InvalidKey = InvalidKey

  /** The integer constructor: the stored key is congruent to the given one modulo Size. */
  function FromInteger(key: ULong): (c: CaesarCipher)
    ensures (key - c.key) % Size == 0
  {
    CaesarCipher(key % Size)
  }

  /**
   * The string constructor as the source writes it: the empty text means key 0, text
   * whose first character is '-' is rejected, anything else goes through std::stoul
   * and any stoul failure becomes InvalidKey.
   */
  function FromStringAsWritten(key: string): (r: Result<CaesarCipher, InvalidKey>)
    ensures |key| == 0 ==> r == Success(CaesarCipher(0))
    ensures |key| > 0 && key[0] == '-' ==> r == Failure(InvalidKey)
    ensures r.Failure? <==> |key| > 0 && (key[0] == '-' || Stoul.Stoul(key).Failure?)
    ensures r.Success? && |key| > 0 ==> (Stoul.Stoul(key).value - r.value.key) % Size == 0
  {
    if |key| == 0 then Success(CaesarCipher(0))
    else if key[0] == '-' then Failure(InvalidKey)
    else
      match Stoul.Stoul(key)
      case Failure(_) => Failure(InvalidKey)
      case Success(v) => Success(FromInteger(v))
  }

  /** True when std::stoul would read the key text as a negative number. */
  predicate DenotesNegative(key: string) {
    var rest := key[Stoul.Span(key, Stoul.IsSpace)..];
    |rest| > 0 && rest[0] == '-'
  }

  /**
   * The string constructor with the negative-number check made to match what stoul
   * reads: the minus sign is looked for after the leading white space stoul skips.
   */
  function FromString(key: string): (r: Result<CaesarCipher, InvalidKey>)
    ensures |key| == 0 ==> r == Success(CaesarCipher(0))
    ensures DenotesNegative(key) ==> r == Failure(InvalidKey)
    ensures r.Failure? <==> |key| > 0 && (DenotesNegative(key) || Stoul.Stoul(key).Failure?)
    ensures r.Success? && |key| > 0 ==> (Stoul.Stoul(key).value - r.value.key) % Size == 0
  {
    if |key| == 0 then Success(CaesarCipher(0))
    else if DenotesNegative(key) then Failure(InvalidKey)
    else
      match Stoul.Stoul(key)
      case Failure(_) => Failure(InvalidKey)
      case Success(v) => Success(FromInteger(v))
  }

  /** The forward shift for a mode: the key to encrypt, its additive inverse to decrypt. */
  function Shift(c: CaesarCipher, mode: CipherMode): (s: nat)
    ensures 0 <= s <= Size
    ensures mode == Encrypt ==> s == c.key
    ensures mode == Decrypt ==> (c.key + s) % Size == 0
  {
    if mode == Encrypt then c.key else Size - c.key
  }

  /** Addition of a size_t position and a shift, wrapping around at 2^64 as size_t does. */
  function WrappingAdd(index: ULong, shift: nat): (r: ULong)
    requires shift <= Size
    ensures r % Modulus == (index + shift) % Modulus
  {
    if index + shift < Modulus then index + shift else index + shift - Modulus
  }

  /**
   * The single-character applyCipher. A character outside the alphabet is found at
   * npos, and the size_t sum npos + shift wraps around.
   */
  function ApplyChar(c: CaesarCipher, ch: char, mode: CipherMode): (r: char)
    ensures InAlphabet(r)
    ensures InAlphabet(ch) ==> IndexOf(r) == (IndexOf(ch) + Shift(c, mode)) % Size
  {
    LetterAt(WrappingAdd(IndexOf(ch), Shift(c, mode)) % Size)
  }

  /** The whole-text applyCipher: every character transformed on its own, in place. */
  function Apply(c: CaesarCipher, text: string, mode: CipherMode): (r: string)
    ensures |r| == |text|
    ensures forall i :: 0 <= i < |text| ==> r[i] == ApplyChar(c, text[i], mode)
    ensures AllInAlphabet(r)
    decreases |text|
  {
    if |text| == 0 then ""
    else [ApplyChar(c, text[0], mode)] + Apply(c, text[1..], mode)
  }

  /** The letter at position i moves to position i + shift, modulo Size. */
  lemma {:induction false} ShiftLetter(c: CaesarCipher, i: nat, mode: CipherMode)
    requires i < Size
    ensures ApplyChar(c, LetterAt(i), mode) == LetterAt((i + Shift(c, mode)) % Size)
  {
    IndexOfLetter(i);
  }

  /** Shifting a position by the key and then by its inverse, in either order, restores it. */
  lemma {:induction false} InverseShifts(i: nat, k: Key)
    requires i < Size
    ensures ((i + k) % Size + (Size - k)) % Size == i
    ensures ((i + (Size - k)) % Size + k) % Size == i
  {
  }

  /** Two letters at the same alphabet position are the same letter. */
  lemma {:induction false} SameIndexSameLetter(a: char, b: char)
    requires InAlphabet(a) && InAlphabet(b) && IndexOf(a) == IndexOf(b)
    ensures a == b
  {
  }

  /** Decrypting undoes encrypting a letter, and encrypting undoes decrypting it. */
  lemma {:induction false} CharRoundTrip(c: CaesarCipher, ch: char)
    requires InAlphabet(ch)
    ensures ApplyChar(c, ApplyChar(c, ch, Encrypt), Decrypt) == ch
    ensures ApplyChar(c, ApplyChar(c, ch, Decrypt), Encrypt) == ch
  {
    var i := IndexOf(ch);
    InverseShifts(i, c.key);
    var e := ApplyChar(c, ch, Encrypt);
    assert IndexOf(e) == (i + c.key) % Size;
    SameIndexSameLetter(ApplyChar(c, e, Decrypt), ch);
    var d := ApplyChar(c, ch, Decrypt);
    assert IndexOf(d) == (i + (Size - c.key)) % Size;
    SameIndexSameLetter(ApplyChar(c, d, Encrypt), ch);
  }

  /** For text made of letters, decryption inverts encryption with the same key, and vice versa. */
  lemma {:induction false} RoundTrip(c: CaesarCipher, text: string)
    requires AllInAlphabet(text)
    ensures Apply(c, Apply(c, text, Encrypt), Decrypt) == text
    ensures Apply(c, Apply(c, text, Decrypt), Encrypt) == text
  {
    forall i | 0 <= i < |text|
      ensures Apply(c, Apply(c, text, Encrypt), Decrypt)[i] == text[i]
      ensures Apply(c, Apply(c, text, Decrypt), Encrypt)[i] == text[i]
    {
      CharRoundTrip(c, text[i]);
    }
  }

  /** Key 0 leaves a letter unchanged in either mode: its decrypt shift Size is also no shift. */
  lemma {:induction false} ZeroKeyChar(ch: char, mode: CipherMode)
    requires InAlphabet(ch)
    ensures ApplyChar(CaesarCipher(0), ch, mode) == ch
  {
    var r := ApplyChar(CaesarCipher(0), ch, mode);
    assert IndexOf(r) == (IndexOf(ch) + Shift(CaesarCipher(0), mode)) % Size == IndexOf(ch);
    SameIndexSameLetter(r, ch);
  }

  /** Key 0 leaves letter text unchanged in either mode. */
  lemma {:induction false} ZeroKeyIsIdentity(text: string, mode: CipherMode)
    requires AllInAlphabet(text)
    ensures Apply(CaesarCipher(0), text, mode) == text
  {
    forall i | 0 <= i < |text|
      ensures Apply(CaesarCipher(0), text, mode)[i] == text[i]
    {
      ZeroKeyChar(text[i], mode);
    }
  }

  /** Integer keys k and k + Size build the same cipher, so they transform every text alike. */
  lemma {:induction false} KeyNormalisation(k: ULong, text: string, mode: CipherMode)
    requires k + Size < Modulus
    ensures FromInteger(k) == FromInteger(k + Size)
    ensures Apply(FromInteger(k), text, mode) == Apply(FromInteger(k + Size), text, mode)
  {
  }

  /**
   * Every character outside the alphabet becomes one and the same letter: npos + shift
   * wraps to shift - 1, or stays npos (which is 15 modulo 26) when the shift is 0.
   */
  lemma {:induction false} NonLetterReplaced(c: CaesarCipher, ch: char, mode: CipherMode)
    requires !InAlphabet(ch)
    ensures Shift(c, mode) == 0 ==> ApplyChar(c, ch, mode) == 'P'
    ensures Shift(c, mode) > 0 ==> ApplyChar(c, ch, mode) == LetterAt(Shift(c, mode) - 1)
  {
  }

  /** The transform works symbol by symbol, so it distributes over concatenation. */
  lemma {:induction false} ApplyConcat(c: CaesarCipher, a: string, b: string, mode: CipherMode)
    ensures Apply(c, a + b, mode) == Apply(c, a, mode) + Apply(c, b, mode)
  {
    var lhs := Apply(c, a + b, mode);
    var rhs := Apply(c, a, mode) + Apply(c, b, mode);
    forall i | 0 <= i < |lhs|
      ensures lhs[i] == rhs[i]
    {
      if i < |a| {
        assert (a + b)[i] == a[i];
      } else {
        assert (a + b)[i] == b[i - |a|];
      }
    }
  }

  /** Key 3 moves a letter three places forward to encrypt and three back to decrypt. */
  lemma {:induction false} KeyThreeLetter(i: nat)
    requires i < Size
    ensures ApplyChar(CaesarCipher(3), LetterAt(i), Encrypt) == LetterAt((i + 3) % Size)
    ensures ApplyChar(CaesarCipher(3), LetterAt(i), Decrypt) == LetterAt((i + 23) % Size)
  {
    ShiftLetter(CaesarCipher(3), i, Encrypt);
    ShiftLetter(CaesarCipher(3), i, Decrypt);
  }

  /** Key 3 turns HELLO into KHOOR and back. */
  lemma {:induction false} HelloExample()
    ensures Apply(CaesarCipher(3), "HELLO", Encrypt) == "KHOOR"
    ensures Apply(CaesarCipher(3), "KHOOR", Decrypt) == "HELLO"
  {
    var c := CaesarCipher(3);
    KeyThreeLetter(7);
    KeyThreeLetter(4);
    KeyThreeLetter(11);
    KeyThreeLetter(14);
    KeyThreeLetter(10);
    KeyThreeLetter(17);
    assert LetterAt(7) == 'H' && LetterAt(4) == 'E' && LetterAt(11) == 'L' && LetterAt(14) == 'O';
    assert LetterAt(10) == 'K' && LetterAt(17) == 'R';
    var e := Apply(c, "HELLO", Encrypt);
    assert e[0] == 'K' && e[1] == 'H' && e[2] == 'O' && e[3] == 'O' && e[4] == 'R';
    var d := Apply(c, "KHOOR", Decrypt);
    assert d[0] == 'H' && d[1] == 'E' && d[2] == 'L' && d[3] == 'L' && d[4] == 'O';
  }

  /**
   * Key text holding a decimal numeral, optionally followed by text that does not start
   * with a digit (which stoul ignores), gives the numeral's value modulo Size; a numeral
   * too large for an unsigned long is rejected. Both constructors agree on such text.
   */
  lemma {:induction false} KeyFromDecimal(n: nat, rest: string)
    requires |rest| == 0 || !Stoul.IsDigit(rest[0])
    ensures n < Modulus ==> FromString(Stoul.Decimal(n) + rest) == Success(FromInteger(n))
    ensures n < Modulus ==> FromStringAsWritten(Stoul.Decimal(n) + rest) == Success(FromInteger(n))
    ensures n >= Modulus ==> FromString(Stoul.Decimal(n) + rest) == Failure(InvalidKey)
    ensures n >= Modulus ==> FromStringAsWritten(Stoul.Decimal(n) + rest) == Failure(InvalidKey)
  {
    Stoul.StoulReadsNumeral(n, rest);
  }

  /** Key text without any decimal digit is rejected by both constructors. */
  lemma {:induction false} KeyWithoutDigitsRejected(key: string)
    requires |key| > 0
    requires forall i :: 0 <= i < |key| ==> !Stoul.IsDigit(key[i])
    ensures FromString(key) == Failure(InvalidKey)
    ensures FromStringAsWritten(key) == Failure(InvalidKey)
  {
    Stoul.StoulNeedsDigit(key);
  }

  /**
   * White space, a minus sign and a run of digits: the first character is not the
   * minus sign, stoul skips the white space and reads the negated value, and the minus
   * sign is the first character after the white space.
   */
  lemma {:induction false} SpaceThenMinus(ws: string, ds: string)
    requires |ws| > 0
    requires forall i :: 0 <= i < |ws| ==> Stoul.IsSpace(ws[i])
    requires |ds| > 0 && Stoul.AllDigits(ds) && Stoul.DigitsValue(ds) < Modulus
    ensures (ws + "-" + ds)[0] != '-'
    ensures Stoul.Stoul(ws + "-" + ds) == Success(Stoul.Signed(Stoul.Sign.Minus, Stoul.DigitsValue(ds)))
    ensures DenotesNegative(ws + "-" + ds)
  {
    var tail := "-" + ds;
    var key := ws + tail;
    assert ws + "-" + ds == key;
    assert key[0] == ws[0];
    assert ws + Stoul.Sign.Minus.Text() + ds + "" == key;
    Stoul.StoulReadsDigits(ws, Stoul.Sign.Minus, ds, "");
    Stoul.SpanOfPrefix(ws, tail, Stoul.IsSpace);
    assert key[|ws|..] == tail;
  }

  /**
   * White space before a minus sign hides it from the first-character check: the source
   * accepts such a key with the digits' value negated modulo 2^64, while the corrected
   * constructor rejects it.
   */
  lemma {:induction false} LeadingSpaceNegativeKey(ws: string, ds: string)
    requires |ws| > 0
    requires forall i :: 0 <= i < |ws| ==> Stoul.IsSpace(ws[i])
    requires |ds| > 0 && Stoul.AllDigits(ds) && Stoul.DigitsValue(ds) < Modulus
    ensures FromStringAsWritten(ws + "-" + ds)
         == Success(FromInteger(Stoul.Signed(Stoul.Sign.Minus, Stoul.DigitsValue(ds))))
    ensures FromString(ws + "-" + ds) == Failure(InvalidKey)
  {
    SpaceThenMinus(ws, ds);
  }

  /** Key text that starts with a digit holds no minus sign for either check to see. */
  lemma {:induction false} DigitFirstNotNegative(key: string)
    requires |key| > 0 && Stoul.IsDigit(key[0])
    ensures key[0] != '-'
    ensures !DenotesNegative(key)
  {
    assert Stoul.Span(key, Stoul.IsSpace) == 0;
    assert key[0..] == key;
  }

  /** Key text that starts with a run of digits is read by stoul as the digits' value. */
  lemma {:induction false} DigitsKeyText(ds: string, rest: string)
    requires |ds| > 0 && Stoul.AllDigits(ds)
    requires |rest| == 0 || !Stoul.IsDigit(rest[0])
    ensures |ds + rest| > 0 && Stoul.IsDigit((ds + rest)[0])
    ensures Stoul.DigitsValue(ds) < Modulus ==>
      Stoul.Stoul(ds + rest) == Success(Stoul.DigitsValue(ds))
    ensures Stoul.DigitsValue(ds) >= Modulus ==>
      Stoul.Stoul(ds + rest) == Failure(Stoul.OutOfRange)
  {
    assert (ds + rest)[0] == ds[0];
    assert "" + Stoul.Sign.NoSign.Text() + ds + rest == ds + rest;
    Stoul.StoulReadsDigits("", Stoul.Sign.NoSign, ds, rest);
  }

  /**
   * Key text starting with any run of digits, leading zeros included, followed by text
   * that does not start with a digit, gives the digits' value modulo Size, or is
   * rejected when the value does not fit in an unsigned long. Both constructors agree.
   */
  lemma {:induction false} KeyFromDigits(ds: string, rest: string)
    requires |ds| > 0 && Stoul.AllDigits(ds)
    requires |rest| == 0 || !Stoul.IsDigit(rest[0])
    ensures Stoul.DigitsValue(ds) < Modulus ==>
      FromStringAsWritten(ds + rest) == Success(FromInteger(Stoul.DigitsValue(ds))) &&
      FromString(ds + rest) == Success(FromInteger(Stoul.DigitsValue(ds)))
    ensures Stoul.DigitsValue(ds) >= Modulus ==>
      FromStringAsWritten(ds + rest) == Failure(InvalidKey) &&
      FromString(ds + rest) == Failure(InvalidKey)
  {
    DigitsKeyText(ds, rest);
    DigitFirstNotNegative(ds + rest);
    ConstructorsAgree(ds + rest);
  }

  /** "007" is key 7: stoul reads leading zeros. */
  lemma LeadingZerosExample()
    ensures FromStringAsWritten("007") == Success(CaesarCipher(7))
    ensures FromString("007") == Success(CaesarCipher(7))
  {
    assert "007" + "" == "007";
    assert Stoul.DigitsValue("007") == 7 by {
      assert "007"[..2] == "00" && "00"[..1] == "0" && "0"[..0] == "";
    }
    KeyFromDigits("007", "");
  }

  /**
   * The two constructors differ only on key text that stoul reads as negative: a first
   * character '-' is also the first character after the (empty) white space, so the
   * as-written check is the corrected one whenever no white space comes first.
   */
  lemma {:induction false} ConstructorsAgree(key: string)
    ensures |key| > 0 && key[0] == '-' ==> DenotesNegative(key)
    ensures !DenotesNegative(key) ==> FromString(key) == FromStringAsWritten(key)
    ensures DenotesNegative(key) ==> FromString(key) == Failure(InvalidKey)
  {
    if |key| > 0 && key[0] == '-' {
      assert !Stoul.IsSpace(key[0]);
      assert Stoul.Span(key, Stoul.IsSpace) == 0;
      assert key[0..] == key;
    }
  }

  /** The key texts "", "-5" and "abc" as both constructors treat them. */
  lemma {:induction false} KeyTextExamples()
    ensures FromStringAsWritten("") == Success(CaesarCipher(0))
    ensures FromStringAsWritten("-5") == Failure(InvalidKey)
    ensures FromStringAsWritten("abc") == Failure(InvalidKey)
    ensures FromString("") == Success(CaesarCipher(0))
    ensures FromString("-5") == Failure(InvalidKey)
    ensures FromString("abc") == Failure(InvalidKey)
  {
    assert Stoul.Span("-5", Stoul.IsSpace) == 0;
    assert "-5"[0..] == "-5";
    KeyWithoutDigitsRejected("abc");
  }

  /** " -5": the source accepts it as key 11, since 2^64 - 5 is 11 modulo 26; the corrected constructor rejects it. */
  lemma {:induction false} SpaceMinusFiveExample()
    ensures FromStringAsWritten(" -5") == Success(CaesarCipher(11))
    ensures FromString(" -5") == Failure(InvalidKey)
  {
    assert Stoul.DigitsValue("5") == 5 by {
      assert "5"[..0] == "";
    }
    assert " " + "-" + "5" == " -5";
    LeadingSpaceNegativeKey(" ", "5");
    assert Stoul.Signed(Stoul.Sign.Minus, 5) == Modulus - 5;
  }
}

=== FILE: chunked_engine.dfy ===
/**
 * The chunked execution path of the program: the input is cut into at most numThreads
 * consecutive chunks of ceil(L / numThreads) characters, each chunk is enciphered on
 * its own, and the results are joined in chunk order. The threads, futures and the
 * polling join are not modelled; each chunk's result is the cipher applied to it.
 */
module ChunkedEngine {
  import opened Wrappers
  import opened CipherTypes
  import opened Caesar

  /** The number of chunks (and threads) the program uses. */
  const NumThreads: nat := 4

  /** The exception std::string::substr throws when the start lies past the end. */
  datatype OutOfRange = OutOfRange

  function Min(a: nat, b: nat): nat {
    if a <= b then a else b
  }

  /** The chunk size: the quotient, plus one when the division leaves a remainder. */
  function ChunkSize(inputSize: nat, numThreads: nat): nat
    requires numThreads >= 1
  {
    var q := inputSize / numThreads;
    if inputSize % numThreads != 0 then 1 + q else q
  }

  /**
   * The chunk size is ceil(inputSize / numThreads): numThreads chunks of it cover the
   * input, and one character less per chunk would not.
   */
  lemma ChunkSizeIsCeiling(inputSize: nat, numThreads: nat)
    requires numThreads >= 1
    ensures ChunkSize(inputSize, numThreads) * numThreads >= inputSize
    ensures ChunkSize(inputSize, numThreads) > 0 ==> (ChunkSize(inputSize, numThreads) - 1) * numThreads < inputSize
  {
    var q := inputSize / numThreads;
    assert q * numThreads + inputSize % numThreads == inputSize;
  }

  /** Where chunk k starts: k * chunkSize, built up one chunk at a time. */
  function Start(k: nat, chunkSize: nat): nat {
    if k == 0 then 0 else Start(k - 1, chunkSize) + chunkSize
  }

  /** The start of chunk k is the product the source computes. */
  lemma {:induction false} StartIsProduct(k: nat, chunkSize: nat)
    ensures Start(k, chunkSize) == k * chunkSize
  {
    if k > 0 {
      StartIsProduct(k - 1, chunkSize);
      assert (k - 1) * chunkSize + chunkSize == k * chunkSize;
    }
  }

  /** std::string::substr(pos, count). */
  function Substr(s: string, pos: nat, count: nat): (r: Result<string, OutOfRange>)
    ensures r.Failure? <==> pos > |s|
    ensures r.Success? ==> |r.value| == Min(count, |s| - pos) && r.value == s[pos..pos + |r.value|]
  {
    if pos > |s| then Failure(OutOfRange) else Success(s[pos..Min(|s|, pos + count)])
  }

  /**
   * The chunks the thread-creation loop cuts when count iterations remain and the
   * next chunk starts at position start: each iteration cuts substr(start, chunkSize),
   * and the loop stops when no iterations remain or substr rejects the start.
   */
  function Cut(text: string, chunkSize: nat, start: nat, count: nat): seq<string>
    decreases count
  {
    if count == 0 || start > |text| then []
    else [text[start..Min(|text|, start + chunkSize)]] + Cut(text, chunkSize, start + chunkSize, count - 1)
  }

  /** All the chunks of the input, in order. */
  function Partition(text: string, numThreads: nat): seq<string>
    requires numThreads >= 1
  {
    Cut(text, ChunkSize(|text|, numThreads), 0, numThreads)
  }

  /** The chunks joined in order. */
  function Concat(chunks: seq<string>): string {
    if |chunks| == 0 then "" else chunks[0] + Concat(chunks[1..])
  }

  /** Every chunk enciphered on its own, in chunk order. */
  function ApplyEach(c: CaesarCipher, chunks: seq<string>, mode: CipherMode): (r: seq<string>)
    ensures |r| == |chunks|
  {
    if |chunks| == 0 then [] else [Apply(c, chunks[0], mode)] + ApplyEach(c, chunks[1..], mode)
  }

  /** Result k of enciphering the chunks is chunk k enciphered, so chunk order is kept. */
  lemma {:induction false} ApplyEachPointwise(c: CaesarCipher, chunks: seq<string>, mode: CipherMode, k: nat)
    requires k < |chunks|
    ensures ApplyEach(c, chunks, mode)[k] == Apply(c, chunks[k], mode)
    decreases k
  {
    if k > 0 {
      ApplyEachPointwise(c, chunks[1..], mode, k - 1);
    }
  }

  /** The chunked transform as a whole: partition, encipher each chunk, join in order. */
  function ChunkedApply(c: CaesarCipher, text: string, mode: CipherMode, numThreads: nat): string
    requires numThreads >= 1
  {
    Concat(ApplyEach(c, Partition(text, numThreads), mode))
  }

  /** Joining two runs of chunks is joining their joins. */
  lemma {:induction false} ConcatAppend(a: seq<string>, b: seq<string>)
    ensures Concat(a + b) == Concat(a) + Concat(b)
    decreases |a|
  {
    if |a| == 0 {
      assert a + b == b;
    } else {
      assert (a + b)[1..] == a[1..] + b;
      ConcatAppend(a[1..], b);
    }
  }

  /**
   * The chunks cut from position start on join up to the rest of the text, provided
   * count chunks of chunkSize reach its end.
   */
  lemma {:induction false} CutCovers(text: string, chunkSize: nat, start: nat, count: nat)
    requires start + Start(count, chunkSize) >= |text|
    ensures Concat(Cut(text, chunkSize, start, count)) == text[Min(start, |text|)..]
    decreases count
  {
    if count > 0 && start <= |text| {
      var chunk := text[start..Min(|text|, start + chunkSize)];
      var rest := Cut(text, chunkSize, start + chunkSize, count - 1);
      CutCovers(text, chunkSize, start + chunkSize, count - 1);
      assert ([chunk] + rest)[1..] == rest;
      assert chunk + text[Min(start + chunkSize, |text|)..] == text[start..];
    }
  }

  /** The chunks partition the input: joined in order they give back exactly the input. */
  lemma {:induction false} PartitionConcat(text: string, numThreads: nat)
    requires numThreads >= 1
    ensures Concat(Partition(text, numThreads)) == text
  {
    var chunkSize := ChunkSize(|text|, numThreads);
    ChunkSizeIsCeiling(|text|, numThreads);
    StartIsProduct(numThreads, chunkSize);
    CutCovers(text, chunkSize, 0, numThreads);
  }

  /** At most count chunks are cut, and fewer only when the next start lies past the end. */
  lemma {:induction false} CutCount(text: string, chunkSize: nat, start: nat, count: nat)
    ensures |Cut(text, chunkSize, start, count)| <= count
    ensures |Cut(text, chunkSize, start, count)| < count ==>
      start + Start(|Cut(text, chunkSize, start, count)|, chunkSize) > |text|
    decreases count
  {
    if count > 0 && start <= |text| {
      CutCount(text, chunkSize, start + chunkSize, count - 1);
      var rest := Cut(text, chunkSize, start + chunkSize, count - 1);
      StartShift(|rest|, chunkSize);
    }
  }

  /** One more chunk in front moves every later start along by one chunk. */
  lemma StartShift(k: nat, chunkSize: nat)
    ensures Start(k + 1, chunkSize) == chunkSize + Start(k, chunkSize)
  {
  }

  /** Chunk k of the chunks cut from position start is the text between its start and the next. */
  lemma {:induction false} CutChunk(text: string, chunkSize: nat, start: nat, count: nat, k: nat)
    requires k < |Cut(text, chunkSize, start, count)|
    ensures start + Start(k, chunkSize) <= |text|
    ensures Cut(text, chunkSize, start, count)[k] ==
      text[start + Start(k, chunkSize)..Min(|text|, start + Start(k + 1, chunkSize))]
    decreases k
  {
    if k > 0 {
      CutChunk(text, chunkSize, start + chunkSize, count - 1, k - 1);
      StartShift(k - 1, chunkSize);
      StartShift(k, chunkSize);
    }
  }

  /**
   * The chunks of the input: at most numThreads; chunk k is the text from chunk k's start
   * to chunk k + 1's start (or the end), where chunk k starts at Start(k, chunkSize),
   * which is k * chunkSize; and fewer than numThreads chunks are cut only when the first
   * start not cut lies past the end.
   */
  lemma {:induction false} PartitionShape(text: string, numThreads: nat)
    requires numThreads >= 1
    ensures |Partition(text, numThreads)| <= numThreads
    ensures forall k :: 0 <= k < |Partition(text, numThreads)| ==>
      Start(k, ChunkSize(|text|, numThreads)) <= |text| &&
      Partition(text, numThreads)[k] ==
        text[Start(k, ChunkSize(|text|, numThreads))..Min(|text|, Start(k + 1, ChunkSize(|text|, numThreads)))]
    ensures |Partition(text, numThreads)| < numThreads ==>
      Start(|Partition(text, numThreads)|, ChunkSize(|text|, numThreads)) > |text|
  {
    var chunkSize := ChunkSize(|text|, numThreads);
    CutCount(text, chunkSize, 0, numThreads);
    forall k | 0 <= k < |Partition(text, numThreads)|
      ensures Start(k, chunkSize) <= |text|
      ensures Partition(text, numThreads)[k] == text[Start(k, chunkSize)..Min(|text|, Start(k + 1, chunkSize))]
    {
      CutChunk(text, chunkSize, 0, numThreads, k);
    }
  }

  /** An empty input gives numThreads empty chunks, and joining them gives the empty text. */
  lemma {:induction false} EmptyInputChunks(numThreads: nat)
    requires numThreads >= 1
    ensures |Partition("", numThreads)| == numThreads
    ensures forall k :: 0 <= k < numThreads ==> Partition("", numThreads)[k] == ""
    ensures Concat(Partition("", numThreads)) == ""
  {
    assert ChunkSize(0, numThreads) == 0;
    CutCount("", 0, 0, numThreads);
    StartIsProduct(|Partition("", numThreads)|, 0);
    forall k | 0 <= k < numThreads
      ensures Partition("", numThreads)[k] == ""
    {
      CutChunk("", 0, 0, numThreads, k);
    }
    PartitionConcat("", numThreads);
  }

  /**
   * Early stops: five characters in four chunks of two give three chunks, the fourth
   * start lying past the end; one character gives a one-character chunk and an empty
   * one, the empty one starting exactly at the end.
   */
  lemma ChunkExamples()
    ensures Partition("HELLO", NumThreads) == ["HE", "LL", "O"]
    ensures Partition("X", NumThreads) == ["X", ""]
  {
    assert ChunkSize(5, 4) == 2;
    assert "HELLO"[0..2] == "HE" && "HELLO"[2..4] == "LL" && "HELLO"[4..5] == "O";
    assert ChunkSize(1, 4) == 1;
    assert "X"[0..1] == "X" && "X"[1..1] == "";
  }

  /** Enciphering each chunk and joining the results is enciphering the joined chunks. */
  lemma {:induction false} ApplyEachConcat(c: CaesarCipher, chunks: seq<string>, mode: CipherMode)
    ensures Concat(ApplyEach(c, chunks, mode)) == Apply(c, Concat(chunks), mode)
    decreases |chunks|
  {
    if |chunks| > 0 {
      ApplyEachConcat(c, chunks[1..], mode);
      ApplyConcat(c, chunks[0], Concat(chunks[1..]), mode);
    }
  }

  /**
   * Chunk invariance: for every number of chunks, the chunked transform gives exactly
   * what the cipher gives on the whole text.
   */
  lemma {:induction false} ChunkInvariance(c: CaesarCipher, text: string, mode: CipherMode, numThreads: nat)
    requires numThreads >= 1
    ensures ChunkedApply(c, text, mode, numThreads) == Apply(c, text, mode)
  {
    ApplyEachConcat(c, Partition(text, numThreads), mode);
    PartitionConcat(text, numThreads);
  }

  /** One step of the thread-creation loop: the chunk at start is cut ahead of the rest. */
  lemma CutStep(text: string, chunkSize: nat, start: nat, count: nat, done: seq<string>)
    requires count > 0 && start <= |text|
    ensures done + Cut(text, chunkSize, start, count)
         == (done + [Substr(text, start, chunkSize).value]) + Cut(text, chunkSize, start + chunkSize, count - 1)
  {
  }

  /** Enciphering one more chunk appends its result. */
  lemma {:induction false} ApplyEachSnoc(c: CaesarCipher, chunks: seq<string>, chunk: string, mode: CipherMode)
    ensures ApplyEach(c, chunks + [chunk], mode) == ApplyEach(c, chunks, mode) + [Apply(c, chunk, mode)]
    decreases |chunks|
  {
    if |chunks| == 0 {
      assert chunks + [chunk] == [chunk];
    } else {
      assert (chunks + [chunk])[1..] == chunks[1..] + [chunk];
      ApplyEachSnoc(c, chunks[1..], chunk, mode);
    }
  }

  /** The start of the next chunk is one chunk size further on. */
  lemma {:induction false} NextStart(i: nat, chunkSize: nat)
    ensures (i + 1) * chunkSize == i * chunkSize + chunkSize
  {
  }

  /**
   * The thread-creation loop: cut chunk i at start = i * chunkSize until numThreads
   * chunks are made or substr rejects the start, and encipher each chunk, keeping
   * chunk order.
   */
  method EncipherChunks(c: CaesarCipher, inputText: string, mode: CipherMode, numThreads: nat)
    returns (results: seq<string>)
    requires numThreads >= 1
    ensures results == ApplyEach(c, Partition(inputText, numThreads), mode)
  {
    var chunkSize := ChunkSize(|inputText|, numThreads);
    ghost var chunks: seq<string> := [];
    results := [];
    var i, start := 0, 0;
    while i < numThreads
      invariant i <= numThreads
      invariant start == i * chunkSize
      invariant chunks + Cut(inputText, chunkSize, start, numThreads - i) == Partition(inputText, numThreads)
      invariant results == ApplyEach(c, chunks, mode)
    {
      var chunk := Substr(inputText, start, chunkSize);
      if chunk.Failure? {
        break;
      }
      CutStep(inputText, chunkSize, start, numThreads - i, chunks);
      ApplyEachSnoc(c, chunks, chunk.value, mode);
      results := results + [Apply(c, chunk.value, mode)];
      chunks := chunks + [chunk.value];
      NextStart(i, chunkSize);
      i, start := i + 1, start + chunkSize;
    }
    assert chunks + [] == chunks;
  }

  /** The reassembly loop: append the chunk results to the output in chunk order. */
  method JoinInOrder(results: seq<string>) returns (outputText: string)
    ensures outputText == Concat(results)
  {
    outputText := "";
    var j := 0;
    while j < |results|
      invariant j <= |results|
      invariant outputText == Concat(results[..j])
    {
      ConcatAppend(results[..j], [results[j]]);
      assert results[..j + 1] == results[..j] + [results[j]];
      assert Concat([results[j]]) == results[j];
      outputText := outputText + results[j];
      j := j + 1;
    }
    assert results[..|results|] == results;
  }

  /**
   * The chunked path of the program: encipher the chunks, then join them in chunk
   * order; the result is the cipher applied to the whole input.
   */
  method RunChunked(c: CaesarCipher, inputText: string, mode: CipherMode, numThreads: nat)
    returns (outputText: string)
    requires numThreads >= 1
    ensures outputText == Apply(c, inputText, mode)
  {
    var results := EncipherChunks(c, inputText, mode, numThreads);
    outputText := JoinInOrder(results);
    ChunkInvariance(c, inputText, mode, numThreads);
  }
}

=== FILE: cipher_types.dfy ===
/** The two enumerations shared by the command-line parser and the ciphers. */
module CipherTypes {

  /** Whether a cipher encrypts or decrypts. */
  datatype CipherMode = Encrypt | Decrypt

  /** Which cipher family the program runs. */
  datatype CipherType = Caesar | Playfair | Vigenere
}

=== FILE: command_line.dfy ===
/**
 * The command-line parser: the arguments after the program name are read left to
 * right; a help or version flag sets its indicator and ends the scan, the value options
 * take the next argument verbatim, the mode flags set the mode, and anything else is
 * an error.
 */
module CommandLine {
  import opened Wrappers
  import opened CipherTypes

  /** The settings the command line can change. */
  datatype ProgramSettings = ProgramSettings(
    helpRequested: bool,
    versionRequested: bool,
    inputFile: string,
    outputFile: string,
    cipherKey: string,
    cipherMode: CipherMode,
    cipherType: CipherType)

  /** The options that need a following argument. */
  datatype ValueOption = InFile | OutFile | KeyOption | CipherOption

  /** Every argument the parser recognises, by meaning rather than by spelling. */
  datatype Flag = HelpFlag | VersionFlag | ValueFlag(option: ValueOption) | EncryptFlag | DecryptFlag

  /** What an UnknownArgument complains about: an unrecognised argument, or a cipher name. */
  datatype Unrecognised = Argument(arg: string) | CipherName(name: string)

  /** The two exception kinds the parser throws. */
  datatype ArgError = MissingArgument(option: ValueOption) | UnknownArgument(what: Unrecognised)

  /** How the scan ended without an error: at a help or version flag, or after the last argument. */
  datatype LoopEnd = Broke(settings: ProgramSettings) | Finished(settings: ProgramSettings)

  /** The spellings the parser recognises, tried in the source's order. */
  function Recognise(arg: string): Option<Flag> {
    if arg == "-h" || arg == "--help" then Some(HelpFlag)
    else if arg == "-v" || arg == "--version" then Some(VersionFlag)
    else if arg == "-i" || arg == "--infile" then Some(ValueFlag(InFile))
    else if arg == "-o" || arg == "--outfile" then Some(ValueFlag(OutFile))
    else if arg == "-k" || arg == "--key" then Some(ValueFlag(KeyOption))
    else if arg == "--encrypt" then Some(EncryptFlag)
    else if arg == "--decrypt" then Some(DecryptFlag)
    else if arg == "-c" || arg == "--cipher" then Some(ValueFlag(CipherOption))
    else None
  }

  /** The cipher names -c accepts. */
  function CipherByName(name: string): (r: Option<CipherType>)
    ensures r == Some(Caesar) <==> name == "caesar"
    ensures r == Some(Playfair) <==> name == "playfair"
    ensures r == Some(Vigenere) <==> name == "vigenere"
  {
    if name == "caesar" then Some(Caesar)
    else if name == "playfair" then Some(Playfair)
    else if name == "vigenere" then Some(Vigenere)
    else None
  }

  /** The settings after a value option has taken its value. */
  function SetValue(s: ProgramSettings, option: ValueOption, value: string): Result<ProgramSettings, ArgError> {
    match option
    case InFile => Success(s.(inputFile := value))
    case OutFile => Success(s.(outputFile := value))
    case KeyOption => Success(s.(cipherKey := value))
    case CipherOption =>
      match CipherByName(value)
      case None => Failure(UnknownArgument(CipherName(value)))
      case Some(t) => Success(s.(cipherType := t))
  }

  /** The scan from argument i on, starting from settings s. */
  function ArgLoop(args: seq<string>, i: nat, s: ProgramSettings): Result<LoopEnd, ArgError>
    decreases |args| - i
  {
    if i >= |args| then Success(Finished(s))
    else
      match Recognise(args[i])
      case None => Failure(UnknownArgument(Argument(args[i])))
      case Some(HelpFlag) => Success(Broke(s.(helpRequested := true)))
      case Some(VersionFlag) => Success(Broke(s.(versionRequested := true)))
      case Some(EncryptFlag) => ArgLoop(args, i + 1, s.(cipherMode := Encrypt))
      case Some(DecryptFlag) => ArgLoop(args, i + 1, s.(cipherMode := Decrypt))
      case Some(ValueFlag(option)) =>
        if i == |args| - 1 then Failure(MissingArgument(option))
        else
          match SetValue(s, option, args[i + 1])
          case Failure(e) => Failure(e)
          case Success(s') => ArgLoop(args, i + 2, s')
  }

  /** The settings after the whole command line; the first argument is the program name. */
  function ProcessCommandLine(args: seq<string>, settings: ProgramSettings): Result<ProgramSettings, ArgError> {
    match ArgLoop(args, 1, settings)
    case Failure(e) => Failure(e)
    case Success(end) => Success(end.settings)
  }

  /** The first argument is never looked at, and a bare program name changes nothing. */
  lemma ProgramNameIgnored(name: string, other: string, rest: seq<string>, settings: ProgramSettings)
    ensures ProcessCommandLine([name] + rest, settings) == ProcessCommandLine([other] + rest, settings)
    ensures ProcessCommandLine([name], settings) == Success(settings)
    ensures ProcessCommandLine([], settings) == Success(settings)
  {
    ArgLoopSuffix([name] + rest, [other] + rest, 1, settings);
  }

  /** The scan from i on sees only the arguments from i on. */
  lemma {:induction false} ArgLoopSuffix(a: seq<string>, b: seq<string>, i: nat, s: ProgramSettings)
    requires |a| == |b| && i <= |a|
    requires a[i..] == b[i..]
    ensures ArgLoop(a, i, s) == ArgLoop(b, i, s)
    decreases |a| - i
  {
    if i < |a| {
      assert a[i] == a[i..][0] == b[i..][0] == b[i];
      assert a[i + 1..] == a[i..][1..] == b[i..][1..] == b[i + 1..];
      match Recognise(a[i])
      case Some(EncryptFlag) => ArgLoopSuffix(a, b, i + 1, s.(cipherMode := Encrypt));
      case Some(DecryptFlag) => ArgLoopSuffix(a, b, i + 1, s.(cipherMode := Decrypt));
      case Some(ValueFlag(option)) =>
        if i + 1 < |a| {
          assert a[i + 1] == a[i..][1] == b[i..][1] == b[i + 1];
          assert a[i + 2..] == a[i..][2..] == b[i..][2..] == b[i + 2..];
          if SetValue(s, option, a[i + 1]).Success? {
            ArgLoopSuffix(a, b, i + 2, SetValue(s, option, a[i + 1]).value);
          }
        }
      case _ =>
    }
  }

  /**
   * Scanning a command line in two pieces: if the scan of the first piece breaks, more
   * arguments change nothing; if it finishes, the scan of the whole continues from the
   * start of the second piece with the settings it reached.
   */
  lemma {:induction false} ArgLoopAppend(pre: seq<string>, post: seq<string>, i: nat, s: ProgramSettings)
    requires i <= |pre|
    ensures ArgLoop(pre, i, s).Success? && ArgLoop(pre, i, s).value.Broke? ==>
      ArgLoop(pre + post, i, s) == ArgLoop(pre, i, s)
    ensures ArgLoop(pre, i, s).Success? && ArgLoop(pre, i, s).value.Finished? ==>
      ArgLoop(pre + post, i, s) == ArgLoop(pre + post, |pre|, ArgLoop(pre, i, s).value.settings)
    ensures ArgLoop(pre, i, s).Failure? && ArgLoop(pre, i, s).error.UnknownArgument? ==>
      ArgLoop(pre + post, i, s) == ArgLoop(pre, i, s)
    decreases |pre| - i
  {
    if i < |pre| {
      var all := pre + post;
      assert all[i] == pre[i];
      if i + 1 < |pre| {
        assert all[i + 1] == pre[i + 1];
      }
      match Recognise(pre[i])
      case Some(EncryptFlag) => ArgLoopAppend(pre, post, i + 1, s.(cipherMode := Encrypt));
      case Some(DecryptFlag) => ArgLoopAppend(pre, post, i + 1, s.(cipherMode := Decrypt));
      case Some(ValueFlag(option)) =>
        if i + 1 < |pre| && SetValue(s, option, pre[i + 1]).Success? {
          ArgLoopAppend(pre, post, i + 2, SetValue(s, option, pre[i + 1]).value);
        }
      case _ =>
    }
  }

  /**
   * A help or version flag ends the scan: whatever follows it is never examined, and it
   * sets its own indicator and no other field of the settings the prefix reached.
   */
  lemma HelpStops(pre: seq<string>, flag: string, post: seq<string>, settings: ProgramSettings)
    requires 1 <= |pre|
    requires ArgLoop(pre, 1, settings).Success? && ArgLoop(pre, 1, settings).value.Finished?
    requires flag in {"-h", "--help", "-v", "--version"}
    ensures ProcessCommandLine(pre + [flag] + post, settings).Success?
    ensures ProcessCommandLine(pre + [flag] + post, settings)
         == ProcessCommandLine(pre + [flag], settings)
    ensures ProcessCommandLine(pre + [flag] + post, settings).value.helpRequested
        <==> settings.helpRequested || flag in {"-h", "--help"}
    ensures ProcessCommandLine(pre + [flag] + post, settings).value.versionRequested
        <==> settings.versionRequested || flag in {"-v", "--version"}
    ensures flag in {"-h", "--help"} ==>
      ProcessCommandLine(pre + [flag] + post, settings)
        == Success(ArgLoop(pre, 1, settings).value.settings.(helpRequested := true))
    ensures flag in {"-v", "--version"} ==>
      ProcessCommandLine(pre + [flag] + post, settings)
        == Success(ArgLoop(pre, 1, settings).value.settings.(versionRequested := true))
  {
    var s' := ArgLoop(pre, 1, settings).value.settings;
    ArgLoopAppend(pre, [flag] + post, 1, settings);
    ArgLoopAppend(pre, [flag], 1, settings);
    assert pre + [flag] + post == pre + ([flag] + post);
    assert (pre + ([flag] + post))[|pre|] == flag;
    assert (pre + [flag])[|pre|] == flag;
    ArgLoopAppend(pre + [flag], post, |pre|, s');
    FramedFlags(pre, 1, settings);
  }

  /** A help or version flag is never set by anything but its own flag. */
  lemma {:induction false} FramedFlags(args: seq<string>, i: nat, s: ProgramSettings)
    ensures ArgLoop(args, i, s).Success? && ArgLoop(args, i, s).value.Finished? ==>
      ArgLoop(args, i, s).value.settings.helpRequested == s.helpRequested &&
      ArgLoop(args, i, s).value.settings.versionRequested == s.versionRequested
    decreases |args| - i
  {
    if i < |args| {
      match Recognise(args[i])
      case Some(EncryptFlag) => FramedFlags(args, i + 1, s.(cipherMode := Encrypt));
      case Some(DecryptFlag) => FramedFlags(args, i + 1, s.(cipherMode := Decrypt));
      case Some(ValueFlag(option)) =>
        if i + 1 < |args| && SetValue(s, option, args[i + 1]).Success? {
          FramedFlags(args, i + 2, SetValue(s, option, args[i + 1]).value);
        }
      case _ =>
    }
  }

  /**
   * After a clean scan of the first piece, the next argument decides: an unrecognised
   * argument is reported as such, a value option at the very end is missing its
   * argument, an unknown cipher name after -c is reported, and a mode flag as the last
   * argument sets the mode whatever came before.
   */
  lemma NextArgumentDecides(pre: seq<string>, arg: string, post: seq<string>, settings: ProgramSettings)
    requires 1 <= |pre|
    requires ArgLoop(pre, 1, settings).Success? && ArgLoop(pre, 1, settings).value.Finished?
    ensures Recognise(arg).None? ==>
      ProcessCommandLine(pre + [arg] + post, settings) == Failure(UnknownArgument(Argument(arg)))
    ensures forall option :: Recognise(arg) == Some(ValueFlag(option)) ==>
      ProcessCommandLine(pre + [arg], settings) == Failure(MissingArgument(option))
    ensures Recognise(arg) == Some(ValueFlag(CipherOption)) && |post| >= 1 && CipherByName(post[0]).None? ==>
      ProcessCommandLine(pre + [arg] + post, settings) == Failure(UnknownArgument(CipherName(post[0])))
    ensures arg == "--encrypt" ==>
      ProcessCommandLine(pre + [arg], settings) == Success(ArgLoop(pre, 1, settings).value.settings.(cipherMode := Encrypt))
    ensures arg == "--decrypt" ==>
      ProcessCommandLine(pre + [arg], settings) == Success(ArgLoop(pre, 1, settings).value.settings.(cipherMode := Decrypt))
  {
    var s' := ArgLoop(pre, 1, settings).value.settings;
    assert pre + [arg] + post == pre + ([arg] + post);
    ArgLoopAppend(pre, [arg] + post, 1, settings);
    ArgLoopAppend(pre, [arg], 1, settings);
    assert (pre + ([arg] + post))[|pre|] == arg;
    assert (pre + [arg])[|pre|] == arg;
    if |post| >= 1 {
      assert (pre + ([arg] + post))[|pre| + 1] == post[0];
    }
  }

  /**
   * Later occurrences override earlier ones: after a clean scan of the first piece, a
   * file-name or key option followed by v sets that field to v, verbatim, even when v
   * looks like a flag, whatever the first piece had set it to; a cipher option followed
   * by a known name sets the cipher type to the one named. No other field changes.
   */
  lemma LastValueWins(pre: seq<string>, arg: string, v: string, settings: ProgramSettings)
    requires 1 <= |pre|
    requires ArgLoop(pre, 1, settings).Success? && ArgLoop(pre, 1, settings).value.Finished?
    ensures arg in {"-i", "--infile"} ==>
      ProcessCommandLine(pre + [arg, v], settings) == Success(ArgLoop(pre, 1, settings).value.settings.(inputFile := v))
    ensures arg in {"-o", "--outfile"} ==>
      ProcessCommandLine(pre + [arg, v], settings) == Success(ArgLoop(pre, 1, settings).value.settings.(outputFile := v))
    ensures arg in {"-k", "--key"} ==>
      ProcessCommandLine(pre + [arg, v], settings) == Success(ArgLoop(pre, 1, settings).value.settings.(cipherKey := v))
    ensures arg in {"-c", "--cipher"} && CipherByName(v).Some? ==>
      ProcessCommandLine(pre + [arg, v], settings)
        == Success(ArgLoop(pre, 1, settings).value.settings.(cipherType := CipherByName(v).value))
  {
    ArgLoopAppend(pre, [arg, v], 1, settings);
    var all := pre + [arg, v];
    assert all[|pre|] == arg && all[|pre| + 1] == v && |all| == |pre| + 2;
  }

  /** Option `option` appears at some j >= i with value v right after it. */
  ghost predicate GivenFrom(args: seq<string>, i: nat, option: ValueOption, v: string) {
    exists j :: i <= j < |args| - 1 && Recognise(args[j]) == Some(ValueFlag(option)) && args[j + 1] == v
  }

  /** A mode flag appears at some j >= i. */
  ghost predicate ModeFrom(args: seq<string>, i: nat, flag: Flag) {
    exists j :: i <= j < |args| && Recognise(args[j]) == Some(flag)
  }

  /** The text setting a file-name or key option writes. */
  function Field(s: ProgramSettings, option: ValueOption): string
    requires option != CipherOption
  {
    match option
    case InFile => s.inputFile
    case OutFile => s.outputFile
    case KeyOption => s.cipherKey
  }

  /**
   * A file name or key the scan produces is either the one it started with or the
   * argument right after that option on the command line, verbatim.
   */
  lemma {:induction false} ValueTrace(args: seq<string>, i: nat, s: ProgramSettings, option: ValueOption)
    requires option != CipherOption
    ensures ArgLoop(args, i, s).Success? ==>
      Field(ArgLoop(args, i, s).value.settings, option) == Field(s, option) ||
      GivenFrom(args, i, option, Field(ArgLoop(args, i, s).value.settings, option))
    decreases |args| - i
  {
    if i < |args| {
      match Recognise(args[i])
      case Some(EncryptFlag) => ValueTrace(args, i + 1, s.(cipherMode := Encrypt), option);
      case Some(DecryptFlag) => ValueTrace(args, i + 1, s.(cipherMode := Decrypt), option);
      case Some(ValueFlag(o)) =>
        if i + 1 < |args| && SetValue(s, o, args[i + 1]).Success? {
          var s' := SetValue(s, o, args[i + 1]).value;
          ValueTrace(args, i + 2, s', option);
          if ArgLoop(args, i, s).Success? {
            var v := Field(ArgLoop(args, i, s).value.settings, option);
            if v == Field(s', option) && v != Field(s, option) {
              assert Recognise(args[i]) == Some(ValueFlag(option)) && args[i + 1] == v;
            }
          }
        }
      case _ =>
    }
  }

  /** A cipher type the scan produces is the one it started with or one named after -c. */
  lemma {:induction false} CipherTypeTrace(args: seq<string>, i: nat, s: ProgramSettings)
    ensures ArgLoop(args, i, s).Success? ==>
      ArgLoop(args, i, s).value.settings.cipherType == s.cipherType ||
      exists name :: GivenFrom(args, i, CipherOption, name) &&
                     CipherByName(name) == Some(ArgLoop(args, i, s).value.settings.cipherType)
    decreases |args| - i
  {
    if i < |args| {
      match Recognise(args[i])
      case Some(EncryptFlag) => CipherTypeTrace(args, i + 1, s.(cipherMode := Encrypt));
      case Some(DecryptFlag) => CipherTypeTrace(args, i + 1, s.(cipherMode := Decrypt));
      case Some(ValueFlag(o)) =>
        if i + 1 < |args| && SetValue(s, o, args[i + 1]).Success? {
          var s' := SetValue(s, o, args[i + 1]).value;
          CipherTypeTrace(args, i + 2, s');
          if ArgLoop(args, i, s).Success? {
            var t := ArgLoop(args, i, s).value.settings.cipherType;
            if t == s'.cipherType && t != s.cipherType {
              assert GivenFrom(args, i, CipherOption, args[i + 1]);
            }
          }
        }
      case _ =>
    }
  }

  /** A mode the scan produces is the one it started with or comes from its own flag. */
  lemma {:induction false} ModeTrace(args: seq<string>, i: nat, s: ProgramSettings)
    ensures ArgLoop(args, i, s).Success? ==>
      ArgLoop(args, i, s).value.settings.cipherMode == s.cipherMode ||
      ModeFrom(args, i, if ArgLoop(args, i, s).value.settings.cipherMode == Encrypt then EncryptFlag else DecryptFlag)
    decreases |args| - i
  {
    if i < |args| {
      match Recognise(args[i])
      case Some(EncryptFlag) =>
        ModeTrace(args, i + 1, s.(cipherMode := Encrypt));
      case Some(DecryptFlag) =>
        ModeTrace(args, i + 1, s.(cipherMode := Decrypt));
      case Some(ValueFlag(o)) =>
        if i + 1 < |args| && SetValue(s, o, args[i + 1]).Success? {
          ModeTrace(args, i + 2, SetValue(s, o, args[i + 1]).value);
        }
      case _ =>
    }
  }

  /**
   * If the scan from i fails for lack of an option's argument, the last argument on the
   * command line is that option.
   */
  lemma {:induction false} MissingArgumentIsLast(args: seq<string>, i: nat, s: ProgramSettings)
    ensures forall option :: ArgLoop(args, i, s) == Failure(MissingArgument(option)) ==>
      |args| >= 1 && Recognise(args[|args| - 1]) == Some(ValueFlag(option))
    decreases |args| - i
  {
    if i < |args| {
      match Recognise(args[i])
      case Some(EncryptFlag) => MissingArgumentIsLast(args, i + 1, s.(cipherMode := Encrypt));
      case Some(DecryptFlag) => MissingArgumentIsLast(args, i + 1, s.(cipherMode := Decrypt));
      case Some(ValueFlag(option)) =>
        if i + 1 < |args| && SetValue(s, option, args[i + 1]).Success? {
          MissingArgumentIsLast(args, i + 2, SetValue(s, option, args[i + 1]).value);
        }
      case _ =>
    }
  }

  /** A key given with -k is stored verbatim, with or without a --decrypt before it. */
  lemma KeyOnlyCommandLines(name: string, key: string, settings: ProgramSettings)
    ensures ProcessCommandLine([name, "-k", key], settings) == Success(settings.(cipherKey := key))
    ensures ProcessCommandLine([name, "--decrypt", "-k", key], settings)
         == Success(settings.(cipherMode := Decrypt, cipherKey := key))
  {
    assert Recognise("-k") == Some(ValueFlag(KeyOption));
    assert Recognise("--decrypt") == Some(DecryptFlag);
    var args := [name, "-k", key];
    assert ArgLoop(args, 1, settings) == ArgLoop(args, 3, settings.(cipherKey := key));
    var args' := [name, "--decrypt", "-k", key];
    var s' := settings.(cipherMode := Decrypt);
    assert ArgLoop(args', 1, settings) == ArgLoop(args', 2, s');
    assert ArgLoop(args', 2, s') == ArgLoop(args', 4, s'.(cipherKey := key));
  }

  /** A full command line and what it gives. */
  lemma SettingsExample(settings: ProgramSettings)
    ensures ProcessCommandLine(["mpags-cipher", "-i", "in.txt", "--decrypt", "-k", "5", "-c", "playfair"], settings)
         == Success(settings.(inputFile := "in.txt", cipherMode := Decrypt, cipherKey := "5", cipherType := Playfair))
  {
  }

  /** Command lines that stop early or fail, and what they give. */
  lemma StopExamples(settings: ProgramSettings)
    ensures ProcessCommandLine(["mpags-cipher", "--help", "--bogus"], settings)
         == Success(settings.(helpRequested := true))
    ensures ProcessCommandLine(["mpags-cipher", "-k"], settings) == Failure(MissingArgument(KeyOption))
    ensures ProcessCommandLine(["mpags-cipher", "-c", "enigma"], settings) == Failure(UnknownArgument(CipherName("enigma")))
    ensures ProcessCommandLine(["mpags-cipher", "-x", "--help"], settings) == Failure(UnknownArgument(Argument("-x")))
  {
  }
}

=== FILE: program.dfy ===
/**
 * The program as a whole: parse the command line over the default settings, stop for
 * errors, help and version, build the cipher from the key text, and encipher the input.
 * The Caesar cipher runs chunked on NumThreads chunks; the other ciphers run on the
 * whole text through a cipher function supplied by the caller. Reading the input and
 * writing the output are left to the caller: the input text is a parameter and the
 * output text is part of the outcome.
 */
module Program {
  import opened Wrappers
  import opened CipherTypes
  import opened Alphabet
  import opened Caesar
  import opened CommandLine
  import ChunkedEngine

  /** The settings before the command line is read: no flags, no files, no key, encrypt with Caesar. */
  function DefaultSettings(): ProgramSettings {
    ProgramSettings(false, false, "", "", "", Encrypt, CipherType.Caesar)
  }

  /**
   * The Playfair and Vigenère ciphers, which are not part of this model: given the
   * cipher type, the key text, the mode and the input, the output or an invalid key.
   */
  type OtherCiphers = (CipherType, string, CipherMode, string) -> Result<string, InvalidKey>

  /** How a run ends: the exit paths of the program, with the output text when there is one. */
  datatype Outcome =
    | ArgumentError(error: ArgError)
    | HelpShown
    | VersionShown
    | KeyRejected
    | Output(text: string)

  /**
   * Build the requested cipher and apply it to the whole input. The Caesar cipher is
   * built by the string constructor as the source writes it.
   */
  function Encipher(settings: ProgramSettings, inputText: string, others: OtherCiphers): Result<string, InvalidKey> {
    if settings.cipherType == CipherType.Caesar then
      match FromStringAsWritten(settings.cipherKey)
      case Failure(e) => Failure(e)
      case Success(c) => Success(ChunkedEngine.ChunkedApply(c, inputText, settings.cipherMode, ChunkedEngine.NumThreads))
    else
      others(settings.cipherType, settings.cipherKey, settings.cipherMode, inputText)
  }

  /** One run of the program on the given command line and input text. */
  function Run(args: seq<string>, inputText: string, others: OtherCiphers): Outcome {
    match ProcessCommandLine(args, DefaultSettings())
    case Failure(e) => ArgumentError(e)
    case Success(settings) =>
      if settings.helpRequested then HelpShown
      else if settings.versionRequested then VersionShown
      else
        match Encipher(settings, inputText, others)
        case Failure(_) => KeyRejected
        case Success(out) => Output(out)
  }

  /**
   * The chunked Caesar path gives what the cipher gives on the whole text, and the
   * other ciphers get the settings and the input untouched.
   */
  lemma EncipherIsWholeText(settings: ProgramSettings, inputText: string, others: OtherCiphers)
    ensures settings.cipherType == CipherType.Caesar && FromStringAsWritten(settings.cipherKey).Failure? ==>
      Encipher(settings, inputText, others) == Failure(InvalidKey)
    ensures settings.cipherType == CipherType.Caesar && FromStringAsWritten(settings.cipherKey).Success? ==>
      Encipher(settings, inputText, others) ==
        Success(Apply(FromStringAsWritten(settings.cipherKey).value, inputText, settings.cipherMode))
    ensures settings.cipherType != CipherType.Caesar ==>
      Encipher(settings, inputText, others) ==
        others(settings.cipherType, settings.cipherKey, settings.cipherMode, inputText)
  {
    if settings.cipherType == CipherType.Caesar && FromStringAsWritten(settings.cipherKey).Success? {
      ChunkedEngine.ChunkInvariance(FromStringAsWritten(settings.cipherKey).value, inputText,
                                    settings.cipherMode, ChunkedEngine.NumThreads);
    }
  }

  /**
   * With no options the program encrypts with the Caesar cipher and the empty key,
   * which is key 0: letter text comes out unchanged.
   */
  lemma DefaultRunIsIdentity(name: string, inputText: string, others: OtherCiphers)
    requires AllInAlphabet(inputText)
    ensures Run([name], inputText, others) == Output(inputText)
  {
    ProgramNameIgnored(name, name, [], DefaultSettings());
    EncipherIsWholeText(DefaultSettings(), inputText, others);
    ZeroKeyIsIdentity(inputText, Encrypt);
  }

  /**
   * A Caesar run that encrypts with key text k, followed by a run that decrypts its
   * output with the same k, gives back the original letter text.
   */
  lemma EncryptDecryptRuns(name: string, key: string, inputText: string, others: OtherCiphers)
    requires AllInAlphabet(inputText)
    requires Run([name, "-k", key], inputText, others).Output?
    ensures Run([name, "--decrypt", "-k", key], Run([name, "-k", key], inputText, others).text, others)
         == Output(inputText)
  {
    var encryptArgs := [name, "-k", key];
    var decryptArgs := [name, "--decrypt", "-k", key];
    var encryptSettings := DefaultSettings().(cipherKey := key);
    var decryptSettings := DefaultSettings().(cipherMode := Decrypt, cipherKey := key);
    KeyOnlyCommandLines(name, key, DefaultSettings());
    EncipherIsWholeText(encryptSettings, inputText, others);
    var c := FromStringAsWritten(key).value;
    var encrypted := Apply(c, inputText, Encrypt);
    EncipherIsWholeText(decryptSettings, encrypted, others);
    RoundTrip(c, inputText);
  }

  /** A help flag wins over everything after it, whatever the input. */
  lemma HelpShownFirst(name: string, rest: seq<string>, inputText: string, others: OtherCiphers)
    ensures Run([name, "--help"] + rest, inputText, others) == HelpShown
    ensures Run([name, "--version"] + rest, inputText, others) == VersionShown
  {
    HelpStops([name], "--help", rest, DefaultSettings());
    HelpStops([name], "--version", rest, DefaultSettings());
  }

  /** Key text the Caesar constructor rejects ends the run with an invalid-key outcome. */
  lemma BadKeyRejected(name: string, key: string, inputText: string, others: OtherCiphers)
    requires FromStringAsWritten(key).Failure?
    ensures Run([name, "-k", key], inputText, others) == KeyRejected
  {
    KeyOnlyCommandLines(name, key, DefaultSettings());
  }

  /**
   * Key text " -5" passes the constructor's negative-key check, so the run enciphers
   * the input with key 11 rather than rejecting the key.
   */
  lemma SpaceMinusFiveRun(name: string, inputText: string, others: OtherCiphers)
    ensures Run([name, "-k", " -5"], inputText, others) == Output(Apply(CaesarCipher(11), inputText, Encrypt))
  {
    KeyOnlyCommandLines(name, " -5", DefaultSettings());
    SpaceMinusFiveExample();
    EncipherIsWholeText(DefaultSettings().(cipherKey := " -5"), inputText, others);
  }
}

=== FILE: stoul.dfy ===
/**
 * A model of std::stoul (base 10) as the Caesar key constructor uses it: skip leading
 * white space, accept one optional sign, read the longest run of decimal digits, fail
 * with InvalidArgument when there is none and with OutOfRange when the magnitude does
 * not fit in an unsigned long; a minus sign negates modulo 2^64, as strtoul does.
 */
module Stoul {
  import opened Wrappers
  import opened UnsignedLong

  /** The two exceptions std::stoul throws. */
  datatype StoulError = InvalidArgument | OutOfRange

  /** isspace in the "C" locale: space, \t, \n, \v, \f, \r. */
  predicate IsSpace(c: char) {
    c == ' ' || c == '\t' || c == '\n' || c == '\r' || c as int == 0x0B || c as int == 0x0C
  }

  predicate IsDigit(c: char) {
    '0' <= c <= '9'
  }

  predicate AllDigits(s: string) {
    forall i :: 0 <= i < |s| ==> IsDigit(s[i])
  }

  /** Length of the longest prefix of s whose characters all satisfy p. */
  function Span(s: string, p: char -> bool): (n: nat)
    ensures n <= |s|
    ensures forall i :: 0 <= i < n ==> p(s[i])
    ensures n < |s| ==> !p(s[n])
    decreases |s|
  {
    if |s| > 0 && p(s[0]) then 1 + Span(s[1..], p) else 0
  }

  /** The number a string of decimal digits denotes, most significant digit first. */
  function DigitsValue(ds: string): nat
    requires AllDigits(ds)
    decreases |ds|
  {
    if |ds| == 0 then 0
    else 10 * DigitsValue(ds[..|ds| - 1]) + (ds[|ds| - 1] as int - '0' as int)
  }

  /** The digit character for d. */
  function DigitChar(d: nat): (c: char)
    requires d < 10
    ensures IsDigit(c) && c as int - '0' as int == d
  {
    (48 + d) as char
  }

  /** The shortest decimal spelling of n, the inverse of DigitsValue. */
  function Decimal(n: nat): (ds: string)
    ensures |ds| >= 1
    ensures AllDigits(ds)
    ensures DigitsValue(ds) == n
    decreases n
  {
    if n < 10 then [DigitChar(n)]
    else
      var ds := Decimal(n / 10) + [DigitChar(n % 10)];
      assert ds[..|ds| - 1] == Decimal(n / 10);
      ds
  }

  /** The magnitude std::stoul reads: the value of the longest run of leading digits, if any. */
  function LeadingNumber(body: string): Option<nat> {
    var n := Span(body, IsDigit);
    if n == 0 then None else Some(DigitsValue(body[..n]))
  }

  /** The sign std::stoul accepts in front of the digits. */
  datatype Sign = NoSign | Plus | Minus {
    function Text(): string {
      match this
      case NoSign => ""
      case Plus => "+"
      case Minus => "-"
    }
  }

  /** The sign at the front of the text, if any. */
  function SignOf(rest: string): (sign: Sign)
    ensures sign.Text() <= rest
  {
    if |rest| > 0 && rest[0] == '-' then Minus
    else if |rest| > 0 && rest[0] == '+' then Plus
    else NoSign
  }

  /** The unsigned long a signed magnitude m < 2^64 wraps to: a minus sign negates modulo 2^64. */
  function Signed(sign: Sign, m: nat): ULong
    requires m < Modulus
  {
    if sign == Minus && m > 0 then Modulus - m else m
  }

  /** std::stoul once the leading white space is skipped: optional sign, then the digits. */
  function StoulSigned(rest: string): Result<ULong, StoulError> {
    var sign := SignOf(rest);
    match LeadingNumber(rest[|sign.Text()|..])
    case None => Failure(InvalidArgument)
    case Some(m) => if m >= Modulus then Failure(OutOfRange) else Success(Signed(sign, m))
  }

  /** std::stoul(s) with base 10. */
  function Stoul(s: string): Result<ULong, StoulError> {
    StoulSigned(s[Span(s, IsSpace)..])
  }

  /** The digits of n followed by text that does not start with a digit are read as n. */
  lemma LeadingNumberOfDecimal(n: nat, rest: string)
    requires |rest| == 0 || !IsDigit(rest[0])
    ensures LeadingNumber(Decimal(n) + rest) == Some(n)
  {
    var ds := Decimal(n);
    SpanOfPrefix(ds, rest, IsDigit);
    assert (ds + rest)[..|ds|] == ds;
  }

  /** A run of digits followed by text that does not start with a digit is read as the run's value. */
  lemma {:induction false} LeadingNumberOfDigits(ds: string, rest: string)
    requires |ds| > 0 && AllDigits(ds)
    requires |rest| == 0 || !IsDigit(rest[0])
    ensures LeadingNumber(ds + rest) == Some(DigitsValue(ds))
  {
    SpanOfPrefix(ds, rest, IsDigit);
    assert (ds + rest)[..|ds|] == ds;
  }

  /**
   * Reading any run of digits, leading zeros included: white space, an optional sign,
   * the digits and any text that does not start with a digit give the digits' value
   * (negated modulo 2^64 after a minus), or OutOfRange when it does not fit.
   */
  lemma {:induction false} StoulReadsDigits(ws: string, sign: Sign, ds: string, rest: string)
    requires forall i :: 0 <= i < |ws| ==> IsSpace(ws[i])
    requires |ds| > 0 && AllDigits(ds)
    requires |rest| == 0 || !IsDigit(rest[0])
    ensures DigitsValue(ds) < Modulus ==>
      Stoul(ws + sign.Text() + ds + rest) == Success(Signed(sign, DigitsValue(ds)))
    ensures DigitsValue(ds) >= Modulus ==>
      Stoul(ws + sign.Text() + ds + rest) == Failure(OutOfRange)
  {
    var body := ds + rest;
    assert body[0] == ds[0];
    var tail := sign.Text() + body;
    assert ws + sign.Text() + ds + rest == ws + tail;
    LeadingNumberOfDigits(ds, rest);
    SignOfSigned(sign, body);
    StoulSignedBody(sign, body, DigitsValue(ds));
    StoulSkipsSpace(ws, tail);
  }

  /**
   * Reading back a decimal numeral: white space, an optional sign, the digits of n and
   * any text that does not start with a digit give n (negated modulo 2^64 after a minus),
   * or OutOfRange when n does not fit in an unsigned long.
   */
  lemma {:induction false} StoulReadsDecimal(ws: string, sign: Sign, n: nat, rest: string)
    requires forall i :: 0 <= i < |ws| ==> IsSpace(ws[i])
    requires |rest| == 0 || !IsDigit(rest[0])
    ensures n < Modulus ==> Stoul(ws + sign.Text() + Decimal(n) + rest) == Success(Signed(sign, n))
    ensures n >= Modulus ==> Stoul(ws + sign.Text() + Decimal(n) + rest) == Failure(OutOfRange)
  {
    StoulReadsDigits(ws, sign, Decimal(n), rest);
  }

  /** A bare numeral, optionally followed by non-digit text: no white space to skip, no sign. */
  lemma {:induction false} StoulReadsNumeral(n: nat, rest: string)
    requires |rest| == 0 || !IsDigit(rest[0])
    ensures IsDigit((Decimal(n) + rest)[0])
    ensures Span(Decimal(n) + rest, IsSpace) == 0
    ensures n < Modulus ==> Stoul(Decimal(n) + rest) == Success(n)
    ensures n >= Modulus ==> Stoul(Decimal(n) + rest) == Failure(OutOfRange)
  {
    var key := Decimal(n) + rest;
    assert key[0] == Decimal(n)[0];
    assert "" + key == key;
    SpanOfPrefix("", key, IsSpace);
    assert key[0..] == key;
    LeadingNumberOfDecimal(n, rest);
  }

  /** Leading white space does not change what std::stoul reads. */
  lemma StoulSkipsSpace(ws: string, tail: string)
    requires forall i :: 0 <= i < |ws| ==> IsSpace(ws[i])
    requires |tail| == 0 || !IsSpace(tail[0])
    ensures Stoul(ws + tail) == StoulSigned(tail)
  {
    SpanOfPrefix(ws, tail, IsSpace);
    assert (ws + tail)[|ws|..] == tail;
  }

  /** SignOf finds the sign written in front of text that starts with a digit. */
  lemma SignOfSigned(sign: Sign, body: string)
    requires |body| > 0 && IsDigit(body[0])
    ensures SignOf(sign.Text() + body) == sign
    ensures (sign.Text() + body)[|sign.Text()|..] == body
    ensures !IsSpace((sign.Text() + body)[0])
  {
    if sign == NoSign {
      assert sign.Text() + body == body;
    } else {
      assert (sign.Text() + body)[0] == sign.Text()[0];
    }
  }

  /** A sign followed by digits that denote m: m, signed, or OutOfRange when m does not fit. */
  lemma StoulSignedBody(sign: Sign, body: string, m: nat)
    requires |body| > 0 && IsDigit(body[0])
    requires LeadingNumber(body) == Some(m)
    ensures m < Modulus ==> StoulSigned(sign.Text() + body) == Success(Signed(sign, m))
    ensures m >= Modulus ==> StoulSigned(sign.Text() + body) == Failure(OutOfRange)
  {
    SignOfSigned(sign, body);
  }

  /** A sign followed by a numeral, once the white space is skipped. */
  lemma {:induction false} StoulSignedDecimal(sign: Sign, n: nat, rest: string)
    requires |rest| == 0 || !IsDigit(rest[0])
    ensures |sign.Text() + Decimal(n) + rest| > 0 && !IsSpace((sign.Text() + Decimal(n) + rest)[0])
    ensures n < Modulus ==> StoulSigned(sign.Text() + Decimal(n) + rest) == Success(Signed(sign, n))
    ensures n >= Modulus ==> StoulSigned(sign.Text() + Decimal(n) + rest) == Failure(OutOfRange)
  {
    var body := Decimal(n) + rest;
    assert body[0] == Decimal(n)[0];
    assert sign.Text() + Decimal(n) + rest == sign.Text() + body;
    LeadingNumberOfDecimal(n, rest);
    SignOfSigned(sign, body);
    StoulSignedBody(sign, body, n);
  }

  /**
   * std::stoul throws InvalidArgument exactly when no digit follows the leading white
   * space and the one optional sign, so "x5", "+-5" and "- 5" are all rejected.
   */
  lemma StoulInvalidArgument(s: string)
    ensures var rest := s[Span(s, IsSpace)..];
            var body := rest[|SignOf(rest).Text()|..];
            Stoul(s) == Failure(InvalidArgument) <==> |body| == 0 || !IsDigit(body[0])
  {
  }

  /** A string with no decimal digit at all is rejected with InvalidArgument. */
  lemma StoulNeedsDigit(s: string)
    requires forall i :: 0 <= i < |s| ==> !IsDigit(s[i])
    ensures Stoul(s) == Failure(InvalidArgument)
  {
    var rest := s[Span(s, IsSpace)..];
    var signed := |rest| > 0 && (rest[0] == '-' || rest[0] == '+');
    var body := if signed then rest[1..] else rest;
    if |body| > 0 {
      assert body[0] in s;
    }
  }

  /** The span of a prefix whose characters all satisfy p, followed by one that does not. */
  lemma {:induction false} SpanOfPrefix(a: string, b: string, p: char -> bool)
    requires forall i :: 0 <= i < |a| ==> p(a[i])
    requires |b| == 0 || !p(b[0])
    ensures Span(a + b, p) == |a|
    decreases |a|
  {
    if |a| > 0 {
      assert (a + b)[1..] == a[1..] + b;
      SpanOfPrefix(a[1..], b, p);
    } else {
      assert a + b == b;
    }
  }
}

=== FILE: unsigned_long.dfy ===
/**
 * The 64-bit unsigned arithmetic (size_t, unsigned long) the source relies on. Both
 * types are taken to be 64 bits wide, as on LP64 platforms; where unsigned long is
 * 32 bits wide (LLP64), std::stoul's range and its negation modulus would be 2^32.
 */
module UnsignedLong {

  /** 2^64: every size_t or unsigned long value is below it and their arithmetic wraps at it. */
  const Modulus: nat := 0x1_0000_0000_0000_0000

  /** A value of type size_t or unsigned long. */
  type ULong = x: int | 0 <= x < Modulus
}

=== FILE: wrappers.dfy ===
/** Result and option types standing in for the source's exceptions and missing values. */
module Wrappers {

  /** Either the value an operation computed or the error kind it would have thrown. */
  datatype Result<+R, +E> = Success(value: R) | Failure(error: E)

  /** An optional value. */
  datatype Option<+T> = None | Some(value: T)
}
